=== FILE: README.md ===
# Wallet screens of the Kivy GUI, modelled in Dafny

This project models the decision logic of the mobile wallet's screen
controllers (`gui/kivy/uix/screens.py` of Electrum-LTC). The widgets and the
wallet engine are not modelled. What is modelled is the logic the screens run
on top of them:

- the screen lifecycle shared by every screen (`CScreen`). Enter leads to
  activate, and the view definition is loaded once. Leave leads to
  deactivate. At most one context menu is attached at a time;
- the History screen. It classifies each transaction by confirmation count,
  builds one row per history entry, and pages the list: newest first, eight
  rows unless "see all" is set, and a placeholder when the list is empty;
- the Send form. `do_send` validates in a fixed order: expiry, then address,
  then amount. The model also covers `do_clear`, the guards of `do_save`, and
  loading a payment request into the form;
- Receive-address allocation, which leaves the form untouched when the wallet
  has no unused address;
- the Invoices screen: the status label and icon tables, the per-invoice row,
  and the details popup with its transaction id split into groups of four;
- the tabbed carousel: `switch_to`, `on_index`, and the scroll position of
  `animate_tab_to_center`, computed as an exact `real`.

Each module is a set of pure functions over immutable records. The wallet
library, the invoice store and the application's formatting helpers are
passed in as function-typed parameters:

- `is_address`, `get_amount`, `get_label`, `get_unused_address`,
  `get_status`, `format_amount_and_units`, `format_time`, timestamp
  formatting and the fiat quote hook.

Lifecycle events that the toolkit would dispatch to other screens are returned
as lists instead (`Navigator.Dispatch`). Python's `None` and empty strings are
both falsy in the guards, so both are modelled as `""`. Amounts and expiration
dates use `0` in the same role.

Files: `wrappers.dfy` (Option), `theme.dfy` (icon atlas paths),
`history.dfy`, `lifecycle.dfy`, `navigator.dfy`, `send.dfy`, `receive.dfy`,
`invoices.dfy`.

Behaviour of the code worth knowing, which the model keeps as written:

- Confirmation counts. Only a count of `-1` is unverified. A count of `-2`
  or less falls into the clock branch and is shown as `clock1` with count 1
  (`History.Classify`).
- Activation. `on_activate` reaches `update()` only through `load_screen`,
  so only the first activation of a screen with a view definition updates it
  (`Lifecycle.OnActivate`).
- Swipes. `on_index` does nothing for a slide whose screen has no `tab`
  attribute. A slide whose `tab` attribute is unbound (the History screen's
  defaults to None) makes reading the header text fail, and the current
  slide is entered directly. The same happens when the texts differ and
  the current header has no slide (`Navigator.OnIndex`).

## Model

| member | source | states |
|---|---|---|
| Theme.PathInjective | gui/kivy/uix/screens.py:122-132 | distinct icons are distinct atlas paths, so each confirmation class is told apart by its icon path alone |
| History.Classify | gui/kivy/uix/screens.py:116-132 | close/unverified iff conf = -1; unconfirmed/pending iff conf = 0; confirmed iff conf >= 6; a clock numbered 1..5 iff any other conf < 6, numbered by the adjusted count max(1, conf); a date (or the date error) only when conf > 0; the count is kept except that conf <= -2 becomes 1 |
| History.ClassifyMonotone | gui/kivy/uix/screens.py:125-132 | for non-negative counts, more confirmations never give a lower-ranked icon (pending < clock1..clock5 < confirmed) |
| History.ClassifyExamples | gui/kivy/uix/screens.py:122-132 | 3 gives the path ending in clock3, 10 gives confirmed, -1 gives close, -5 gives clock1 with count 1 and no date |
| History.QuoteText | gui/kivy/uix/screens.py:137-141 | no fiat unit gives no quote; a unit without a known historical value gives "..."; otherwise the quote followed by the unit |
| History.ParseEntry | gui/kivy/uix/screens.py:113-142 | a row's count, icon and time come from the classifier; its label is the wallet label of the hash, or the pruned-outputs text when there is no hash; value and hash are carried over |
| History.Shown | gui/kivy/uix/screens.py:154-168 | the page holds every entry with "see all", otherwise min(length, 8) |
| History.Update | gui/kivy/uix/screens.py:144-172 | with no wallet the card is unchanged; otherwise row k is the parsed entry k places from the newest, there are exactly min(len, 8) rows (all with "see all"), and the empty-list label is present iff no row was shown |
| Lifecycle.Initial | gui/kivy/uix/screens.py:35-42 | a new screen is unloaded, has no menu, and satisfies the screen invariant |
| Lifecycle.DoHideMenu | gui/kivy/uix/screens.py:81-84 | afterwards no menu is recorded or attached; with no menu it is a no-op; loaded state, update count and every non-menu child are untouched |
| Lifecycle.DoShowMenu | gui/kivy/uix/screens.py:86-89 | afterwards exactly one menu is attached, the new one for the target with the screen's actions, whatever was attached before; loaded state, update count and every non-menu child are untouched |
| Lifecycle.LoadScreen | gui/kivy/uix/screens.py:62-68 | attaches the screen's view definition, marks it loaded and counts one update |
| Lifecycle.OnActivate | gui/kivy/uix/screens.py:70-72 | the screen ends loaded iff it was loaded or has a view definition; an already loaded screen or one without a definition is unchanged; otherwise it is exactly `load_screen` (menu and existing children kept); the invariant is kept |
| Lifecycle.Step | gui/kivy/uix/screens.py:54-89 | every lifecycle event (enter, activate, leave, deactivate, show/hide menu) keeps the screen invariant |
| Lifecycle.LazyLoadOnce | gui/kivy/uix/screens.py:54-72 | over any event sequence: the invariant holds, at most one view definition is attached, the screen is loaded iff it was already loaded or it has a view definition and some event activated it, and update was called once iff it is loaded |
| Lifecycle.HideMenuIdempotent | gui/kivy/uix/screens.py:81-84 | hiding the menu twice equals hiding it once, and leaves no menu |
| Lifecycle.LeaveClosesMenu | gui/kivy/uix/screens.py:75-84 | leave, through deactivate, always ends with no menu recorded or attached |
| Lifecycle.ShowMenuTwice | gui/kivy/uix/screens.py:86-89 | opening a second menu closes the first: one menu stays attached, for the second target |
| Navigator.SwitchTo | gui/kivy/uix/screens.py:530-555 | a null header changes nothing; a slide-bound header becomes current and down, the old current header goes normal, other headers are untouched, and exactly-one-down is preserved; leave(old), load(new), enter(new) are emitted iff the header's slide differs from the current slide; a container-only header makes the last header current and down and leaves every header other than it, the old current and the last untouched |
| Navigator.OnIndex | gui/kivy/uix/screens.py:515-528 | a slide whose screen has no tab attribute, or whose header has the current header's text, changes nothing; a slide with an unbound (None) tab, or, when the texts differ, a current header with no slide, emits only enter(current slide); otherwise the navigator is the one `switch_to` of the slide's header gives, and the events are leave(current header's slide), then `switch_to`'s events, then enter(the header's slide, or the current slide when it has none) |
| Navigator.SwipeMatchesTap | gui/kivy/uix/screens.py:515-555 | with headers and slides bound both ways, a swipe to another header's slide makes that header the single current down header and emits exactly leave(old slide), enter(new slide) |
| Navigator.TapThenSwipeIsQuiet | gui/kivy/uix/screens.py:515-555 | after tapping a bound header, the carousel's report of the newly loaded slide triggers nothing more |
| Navigator.ScrollTarget | gui/kivy/uix/screens.py:500-507 | the position lies in [0, 1]; it is 1 for the first two headers (checked first) and 0 for the last two; otherwise (n - idx - 1)/(n - 1), reached only when n >= 5 and strictly between 0 and 1 |
| Navigator.ScrollTargetMonotone | gui/kivy/uix/screens.py:502-507 | the position is non-increasing in the header index |
| Navigator.OnCurrentTab | gui/kivy/uix/screens.py:496-513 | no change while no scroll view holds the tab strip; otherwise the scroll target becomes the header's position |
| Send.DoSend | gui/kivy/uix/screens.py:234-253 | a loaded request is checked for expiry first (expired: that error and nothing else) and then supplies the outputs; without one, an address with a non-ASCII character fails Python 2's `str()` before any query; otherwise the address is checked first (invalid: that error and no amount parse), then the amount (unparsable: that error); otherwise the protected send gets exactly [(TYPE_ADDRESS, address, amount)], no fee, and the message |
| Send.SendGate | gui/kivy/uix/screens.py:234-253 | a send goes ahead iff the request is unexpired, or, with no request, the address is ASCII and valid and the amount parses; the amount is parsed only after the address was accepted; a form send has one output, to the form's address |
| Send.SendInvalidAddressExample | gui/kivy/uix/screens.py:241-244 | "invalid123" gives "Invalid Litecoin Address:\ninvalid123" after the address check alone; the address "é" fails the `str()` conversion before any query |
| Send.DoClear | gui/kivy/uix/screens.py:191-195 | all three fields are empty and no request is loaded |
| Send.DoSave | gui/kivy/uix/screens.py:205-220 | skipped iff there is no address or a request is loaded; the amount failure propagates iff a non-empty amount does not parse; otherwise the saved invoice has the form's address, message and amount, 0 for an empty amount |
| Send.ClearedForm | gui/kivy/uix/screens.py:191-253 | clearing is idempotent; a cleared form cannot be saved, and sending it fails on the address unless the empty address is valid |
| Send.SetRequest | gui/kivy/uix/screens.py:197-203 | the request is loaded, with its requestor as address and its memo as message; the amount field is replaced only when the request has an amount |
| Send.Update | gui/kivy/uix/screens.py:187-203 | with a current invoice, the form holds that request, its requestor as address, its memo as message, and its formatted amount when it has one (the old amount otherwise); without one, no change |
| Send.RequestGovernsSend | gui/kivy/uix/screens.py:197-253 | with a request loaded, saving is skipped and sending depends only on the request's expiry and outputs |
| Receive.GetNewAddress | gui/kivy/uix/screens.py:291-298 | succeeds iff the wallet returns an address; on success the form shows it with blank amount and message; on failure the form is untouched |
| Receive.Update | gui/kivy/uix/screens.py:287-289 | a shown address is kept; with none, a new one is allocated (blank amount and message) when the wallet has one |
| Receive.DoNew | gui/kivy/uix/screens.py:360-362 | the "use the existing requests" notice appears iff no unused address exists, and then nothing changes |
| Receive.UpdateIdempotent | gui/kivy/uix/screens.py:287-298 | updating twice with the same wallet answer equals updating once, for every answer including an empty address |
| Invoices.StatusText | gui/kivy/uix/screens.py:366-371 | Pending, Unknown, Paid and Expired label exactly the unpaid, unknown, paid and expired states |
| Invoices.StatusIcon | gui/kivy/uix/screens.py:372-377 | the important icon exactly for unpaid and unknown, confirmed exactly for paid, close exactly for expired |
| Invoices.StatusTables | gui/kivy/uix/screens.py:366-377 | the four labels are pairwise distinct; icons coincide only for unpaid and unknown; confirmed iff paid, close iff expired |
| Invoices.Project | gui/kivy/uix/screens.py:389-405 | an invoice with an amount shows the formatted amount and its stored status label and icon; one without shows "No Amount", an empty status and the default icon; the date is the formatted expiration or "Never" |
| Invoices.RowStatusFaithful | gui/kivy/uix/screens.py:394-399 | among invoices with an amount, two rows show the same status label exactly when the store reports the same status |
| Invoices.Rows | gui/kivy/uix/screens.py:388-406 | one row per invoice of the sorted list, in the same order |
| Invoices.Update | gui/kivy/uix/screens.py:383-410 | row i is the projection of the i-th invoice of the sorted list, one row per invoice, and the explanatory label iff the list is empty |
| Invoices.Chunks | gui/kivy/uix/screens.py:426 | len div 4 pieces; piece i is characters 4i..4i+3 of the id |
| Invoices.ConcatChunks | gui/kivy/uix/screens.py:426 | the pieces concatenated are the first 4*(len div 4) characters: only a trailing partial group is dropped |
| Invoices.JoinShape | gui/kivy/uix/screens.py:426 | joining four-character pieces with single spaces gives 5k-1 characters, a space at every fifth position and the pieces' characters in order elsewhere |
| Invoices.ChunkedShape | gui/kivy/uix/screens.py:426 | the four-character pieces joined with spaces, character by character: a space at positions 4, 9, 14, ..., the id's characters in order elsewhere |
| Invoices.Grouped | gui/kivy/uix/screens.py:426 | the grouped id has length 5*(len div 4)-1 (0 below four characters), a space at every fifth position and the id's characters in order elsewhere; a trailing partial group is dropped |
| Invoices.UngroupRoundTrip | gui/kivy/uix/screens.py:426 | removing the spaces from the grouped form of a space-free id gives back its first 4*(len div 4) characters |
| Invoices.DoView | gui/kivy/uix/screens.py:416-428 | the expiry and requestor lines agree with the invoice's list row; the description and signature lines carry the memo and verification status; the transaction id line appears iff a transaction is known, and after its caption holds exactly the grouped id, character by character |

## Left out

- Widget plumbing. This covers `Builder.load_file`, `Factory` item
  construction, `add_widget`/`clear_widgets` beyond the modelled child list,
  `_change_action_view`, popups and dialogs. The widget toolkit owns these;
  the model keeps only the resulting rows, labels and child lists.
- `Clock.schedule_once` and `Animation`. The delayed activate after enter is
  modelled as immediate. The scroll animation is modelled as its target
  value only.
- Toolkit property bindings. `on_current_tab` runs when the toolkit sees
  `_current_tab` change, and a carousel's `load_slide` later reports an index
  change. Both are separate handlers here (`Navigator.OnCurrentTab`,
  `Navigator.OnIndex`), not chained into `SwitchTo`.
- The toolkit's own `TabbedPanel.switch_to`. The container-only branch uses
  it, and it is modelled as: the old current header goes normal, the header
  goes down and becomes current. The toggle-button group that would release
  other headers is not modelled. So that branch can end with two headers
  down.
- `tab_list[-1]` raising `IndexError` in `switch_to`. Headers are indices
  into the tab list here, so the list is never empty when a header exists.
- Registering a loaded screen on the application (`setattr(app, ...)` in
  `load_screen`). It is a reference for other code, not state of the screen.
- `send_tx` / `send_tx_thread`. This is background-thread transaction
  building, signing and broadcast, and all of it is wallet-engine work.
- Wallet, invoice-store and payment-request calls: `get_history`,
  `get_label`, `get_unused_address`, `get_status`, `sorted_list`, `verify`,
  `is_address`, `get_amount`, `has_expired`, `make_unsigned_request`. These
  are parameters or record fields. The result of `has_expired` is the
  request's `expired` field.
- Translation. Every user-facing text goes through `_()`; the model uses the
  untranslated English texts.
- `unicode(self.screen.message)` in `do_send`. The form's fields are taken to
  be text values, for which that call cannot fail.
- `get_amount` returning `None` instead of raising. Both `DoSend` and
  `DoSave` model only "parses" or "raises" (`None` in the model).
- `set_URI`, `do_paste`, `do_copy`, `on_address`, `amount_callback`,
  `on_amount_or_message`, `get_URI`, `update_qr`, `do_share`. These cover
  clipboard, URI parsing and creation, Decimal scaling, QR rendering and
  Android intents, which are external formatting and platform I/O.
- `HistoryScreen.label_dialog` and the history rate hook. These are a dialog
  and an unused plugin value.
- The timestamp formatting (`datetime ... isoformat(' ')[:-3]`), `format_time`
  and the fiat quote hook. These are passed in as functions.
- `InvoicesScreen.do_pay` and `do_delete`, and `RequestsScreen.do_show` and
  `do_delete`. They only forward to the application or open a confirmation
  dialog.
- The `menu_actions` lists that `update` installs. They are plain constant
  label lists; the screen record carries its actions as given.
- `RequestsScreen.update`. Its amount-less branch assigns an unused
  `received` and formats a missing amount as the status text. The model does
  not take a position on what that branch was meant to show.

=== FILE: history.dfy ===
/**
  The History screen: classification of each wallet history entry by its
  confirmation count, the per-entry row projection, and the paged list
  the screen shows (newest first, at most eight rows unless "see all").
 */
module History {
  import opened Wrappers
  import opened Theme

  /** One entry as the wallet engine reports it: (tx_hash, conf, value, timestamp, balance).
      An empty `txHash` stands for the engine's missing hash (pruned outputs). */
  datatype Entry = Entry(txHash: string, conf: int, value: int, timestamp: int, balance: int)

  /** The kind of time text shown next to an entry. */
  datatype TimeText =
    | Unknown              // the default, kept when nothing else applies
    | Dated(text: string)  // the formatted timestamp of a mined transaction
    | DateError            // formatting the timestamp raised
    | Unverified
    | Pending

  /** What the classifier decides for one confirmation count. */
  datatype Status = Status(conf: int, icon: Icon, time: TimeText)

  /** The row handed to one history item widget. */
  datatype Row = Row(conf: int, icon: Icon, time: TimeText, message: string,
                     value: int, txHash: string, quote: string)

  /** The wallet-side and plugin-side lookups a history row needs. All of them
      are outside this module; they are passed in as plain functions. */
  datatype Env = Env(
    formatTime: int -> Option<string>,             // None when the timestamp cannot be formatted
    labelOf: string -> string,                     // the wallet's label for a tx hash
    fiatUnit: string,                              // "" when no fiat currency is configured
    historicalValue: (int, int) -> Option<string>  // fiat quote for (value, timestamp), if any
  )

  /** The history card: its item rows and the optional empty-list label. */
  datatype Card = Card(rows: seq<Row>, placeholder: Option<string>)

  const PageSize: nat := 8
  const PrunedLabel: string := "Pruned transaction outputs"
  const EmptyMessage: string := "This screen shows your list of transactions. It is currently empty."

  /** Display rank of a status icon: pending, then the clocks, then confirmed.
      `Close` shares rank 0 with pending only because it belongs to the count
      -1, which the ordering lemma excludes; `Important` is not a history
      icon (only the invoice tables use it). */
  function Rank(icon: Icon): nat
  {
    match icon
    case Close => 0
    case Unconfirmed => 0
    case Clock(n) => n
    case Confirmed => 6
    case Important => 0
  }

  /** The confirmation classifier. Only -1 is unverified; every other count
      below six that is not zero gets a clock, and a count of -2 or less is
      shown as one confirmation. */
  function Classify(conf: int, timestamp: int, formatTime: int -> Option<string>): (r: Status)
    ensures r.icon == Close <==> conf == -1
    ensures r.icon == Unconfirmed <==> conf == 0
    ensures r.icon == Confirmed <==> conf >= 6
    ensures r.icon.Clock? <==> conf < 6 && conf != 0 && conf != -1
    ensures r.icon.Clock? ==> 1 <= r.icon.n <= 5 && r.icon.n == r.conf
    ensures r.icon != Important
    ensures r.time == Unverified <==> conf == -1
    ensures r.time == Pending <==> conf == 0
    ensures r.time.Dated? || r.time == DateError <==> conf > 0
    ensures r.time == Unknown <==> conf <= -2
    ensures conf > 0 ==> (r.time == DateError <==> formatTime(timestamp).None?)
    ensures r.time.Dated? ==> formatTime(timestamp) == Some(r.time.text)
    ensures r.conf == conf || (conf <= -2 && r.conf == 1)
  {
    var time :=
      if conf > 0 then
        match formatTime(timestamp)
        case Some(t) => Dated(t)
        case None => DateError
      else Unknown;
    if conf == -1 then Status(conf, Close, Unverified)
    else if conf == 0 then Status(conf, Unconfirmed, Pending)
    else if conf < 6 then
      var c := if conf < 1 then 1 else conf;
      Status(c, Clock(c), time)
    else Status(conf, Confirmed, time)
  }

  /** Classification never ranks a transaction with more confirmations below
      one with fewer. */
  lemma ClassifyMonotone(a: int, b: int, ta: int, tb: int, f: int -> Option<string>)
    requires 0 <= a <= b
    ensures Rank(Classify(a, ta, f).icon) <= Rank(Classify(b, tb, f).icon)
  {
  }

  /** Example counts: 3, 10, -1 and -5. */
  lemma ClassifyExamples(f: int -> Option<string>)
    ensures Path(Classify(3, 0, f).icon) == "atlas://gui/kivy/theming/light/clock3"
    ensures Classify(10, 0, f).icon == Confirmed
    ensures Classify(-1, 0, f).icon == Close
    ensures Classify(-5, 0, f) == Status(1, Clock(1), Unknown)
  {
  }

  /** The fiat quote text: "..." while no quote is known, the quote and unit
      otherwise, and nothing when no fiat unit is configured. */
  function QuoteText(e: Entry, env: Env): (r: string)
    ensures env.fiatUnit == "" ==> r == ""
    ensures env.fiatUnit != "" && env.historicalValue(e.value, e.timestamp).None? ==> r == "..."
    ensures env.fiatUnit != "" && env.historicalValue(e.value, e.timestamp).Some? ==>
      r == env.historicalValue(e.value, e.timestamp).value + " " + env.fiatUnit
  {
    if env.fiatUnit != "" then
      match env.historicalValue(e.value, e.timestamp)
      case None => "..."
      case Some(s) => s + " " + env.fiatUnit
    else ""
  }

  /** The row for one history entry. */
  function ParseEntry(e: Entry, env: Env): (r: Row)
    ensures Status(r.conf, r.icon, r.time) == Classify(e.conf, e.timestamp, env.formatTime)
    ensures r.message == (if e.txHash != "" then env.labelOf(e.txHash) else PrunedLabel)
    ensures r.value == e.value && r.txHash == e.txHash
    ensures r.quote == QuoteText(e, env)
  {
    var s := Classify(e.conf, e.timestamp, env.formatTime);
    var message := if e.txHash != "" then env.labelOf(e.txHash) else PrunedLabel;
    Row(s.conf, s.icon, s.time, message, e.value, e.txHash, QuoteText(e, env))
  }

  /** How many entries the card shows for a history of length `n`. */
  function Shown(n: nat, seeAll: bool): (k: nat)
    ensures k <= n
    ensures seeAll ==> k == n
    ensures !seeAll ==> k == (if n < PageSize then n else PageSize)
  {
    if seeAll || n < PageSize then n else PageSize
  }

  /** The screen's `update`. Without a wallet nothing changes; otherwise the
      card is rebuilt from the newest entry backwards, stopping after eight
      rows unless `seeAll`, and carries the empty-list label iff no row was
      added. The engine returns the history oldest first. */
  method Update(wallet: Option<seq<Entry>>, seeAll: bool, card: Card, env: Env) returns (r: Card)
    ensures wallet.None? ==> r == card
    ensures wallet.Some? ==> |r.rows| == Shown(|wallet.value|, seeAll)
    ensures wallet.Some? ==> forall k :: 0 <= k < |r.rows| ==>
      r.rows[k] == ParseEntry(wallet.value[|wallet.value| - 1 - k], env)
    ensures wallet.Some? ==> (r.placeholder.Some? <==> |r.rows| == 0)
    ensures r.placeholder.Some? && wallet.Some? ==> r.placeholder == Some(EmptyMessage)
  {
    if wallet.None? {
      return card;
    }
    var history := wallet.value;
    var rows: seq<Row> := [];
    var count := 0;
    var i := |history|;
    while i > 0
      invariant 0 <= i <= |history|
      invariant count == |rows| == |history| - i
      invariant !seeAll ==> count < PageSize
      invariant forall k :: 0 <= k < |rows| ==> rows[k] == ParseEntry(history[|history| - 1 - k], env)
      decreases i
    {
      i := i - 1;
      count := count + 1;
      rows := rows + [ParseEntry(history[i], env)];
      if count == PageSize && !seeAll {
        break;
      }
    }
    r := Card(rows, if count == 0 then Some(EmptyMessage) else None);
  }
}

=== FILE: invoices.dfy ===
/**
  The Invoices screen: the status label and icon tables for payment
  requests, the row each stored invoice becomes, and the invoice details
  popup, including the transaction id split into groups of four characters.
 */
module Invoices {
  import opened Wrappers
  import opened Theme

  /** The payment request states of the wallet library. */
  datatype Status = Unpaid | Unknown | Paid | Expired

  /** The `pr_text` table. */
  function StatusText(s: Status): (r: string)
    ensures r == "Pending" <==> s == Unpaid
    ensures r == "Unknown" <==> s == Unknown
    ensures r == "Paid" <==> s == Paid
    ensures r == "Expired" <==> s == Expired
  {
    match s
    case Unpaid => "Pending"
    case Unknown => "Unknown"
    case Paid => "Paid"
    case Expired => "Expired"
  }

  /** The `pr_icon` table. */
  function StatusIcon(s: Status): (r: Icon)
    ensures r == Important <==> s == Unpaid || s == Unknown
    ensures r == Confirmed <==> s == Paid
    ensures r == Close <==> s == Expired
  {
    match s
    case Unpaid => Important
    case Unknown => Important
    case Paid => Confirmed
    case Expired => Close
  }

  /** Each status has its own label; the icons tell paid and expired apart
      from everything else and share one icon for the two undecided states. */
  lemma StatusTables(a: Status, b: Status)
    ensures StatusText(a) == StatusText(b) <==> a == b
    ensures StatusIcon(a) == StatusIcon(b) <==> a == b || (a in {Unpaid, Unknown} && b in {Unpaid, Unknown})
    ensures StatusIcon(a) == Confirmed <==> a == Paid
    ensures StatusIcon(a) == Close <==> a == Expired
  {
  }

  /** A stored invoice. `amount` 0 means no fixed amount, `expiration` 0
      means it never expires, `tx` is "" until a paying transaction is known. */
  datatype Invoice = Invoice(id: string, requestor: string, memo: string,
                             amount: int, expiration: int, tx: string)

  /** The row of one invoice item. `icon` is None where the item keeps its
      default icon. */
  datatype InvoiceRow = InvoiceRow(key: string, requestor: string, memo: string,
                                   amount: string, status: string, icon: Option<Icon>,
                                   date: string)

  /** The application-side lookups a row needs. */
  datatype Env = Env(statusOf: string -> Status,     // the invoice store's status for a key
                     formatAmount: int -> string,    // amount with its unit
                     formatTime: int -> string)      // an expiration date

  datatype Listing = Listing(rows: seq<InvoiceRow>, placeholder: Option<string>)

  const NoAmount: string := "No Amount"
  const Never: string := "Never"
  const EmptyMessage: string :=
    "This screen shows the list of payment requests that have been sent to you. You may also use it to store contact addresses."

  /** The row for one invoice: the status is looked up and shown only for an
      invoice with an amount; one without shows "No Amount" and an empty status. */
  function Project(pr: Invoice, env: Env): (r: InvoiceRow)
    ensures r.key == pr.id && r.requestor == pr.requestor && r.memo == pr.memo
    ensures pr.amount != 0 ==>
      && r.amount == env.formatAmount(pr.amount)
      && r.status == StatusText(env.statusOf(pr.id))
      && r.icon == Some(StatusIcon(env.statusOf(pr.id)))
    ensures pr.amount == 0 ==> r.amount == NoAmount && r.status == "" && r.icon.None?
    ensures r.date == (if pr.expiration != 0 then env.formatTime(pr.expiration) else Never)
  {
    var date := if pr.expiration != 0 then env.formatTime(pr.expiration) else Never;
    if pr.amount != 0 then
      var status := env.statusOf(pr.id);
      InvoiceRow(pr.id, pr.requestor, pr.memo, env.formatAmount(pr.amount),
                 StatusText(status), Some(StatusIcon(status)), date)
    else
      InvoiceRow(pr.id, pr.requestor, pr.memo, NoAmount, "", None, date)
  }

  /** Among invoices with an amount, two rows show the same status label
      exactly when the store reports the same status for them. */
  lemma RowStatusFaithful(a: Invoice, b: Invoice, env: Env)
    requires a.amount != 0 && b.amount != 0
    ensures Project(a, env).status == Project(b, env).status <==> env.statusOf(a.id) == env.statusOf(b.id)
  {
    StatusTables(env.statusOf(a.id), env.statusOf(b.id));
  }

  /** The rows of the store's sorted list, one per invoice, in order. */
  function Rows(list: seq<Invoice>, env: Env): (r: seq<InvoiceRow>)
    ensures |r| == |list|
    ensures forall i :: 0 <= i < |list| ==> r[i] == Project(list[i], env)
  {
    if list == [] then [] else [Project(list[0], env)] + Rows(list[1..], env)
  }

  /** The screen's `update`: one row per invoice and the explanatory label
      exactly when there is none. */
  function Update(list: seq<Invoice>, env: Env): (r: Listing)
    ensures |r.rows| == |list|
    ensures forall i :: 0 <= i < |list| ==> r.rows[i] == Project(list[i], env)
    ensures forall i :: 0 <= i < |list| ==> r.rows[i].key == list[i].id
    ensures r.placeholder.Some? <==> list == []
  {
    Listing(Rows(list, env), if list == [] then Some(EmptyMessage) else None)
  }

  // ---- transaction id grouping ------------------------------------------

  /** The consecutive four-character pieces of `tx`; a trailing piece shorter
      than four is dropped. */
  function Chunks(tx: string): (r: seq<string>)
    ensures |r| == |tx| / 4
    ensures forall i :: 0 <= i < |r| ==> r[i] == tx[4 * i .. 4 * i + 4]
    decreases |tx|
  {
    if |tx| < 4 then [] else [tx[..4]] + Chunks(tx[4..])
  }

  /** The pieces separated by single spaces. */
  function Join(cs: seq<string>): string
  {
    if |cs| == 0 then "" else if |cs| == 1 then cs[0] else cs[0] + " " + Join(cs[1..])
  }

  function Concat(cs: seq<string>): string
  {
    if cs == [] then "" else cs[0] + Concat(cs[1..])
  }

  /** `s` with its spaces removed. */
  function Unspace(s: string): string
  {
    if s == [] then "" else (if s[0] == ' ' then "" else [s[0]]) + Unspace(s[1..])
  }

  /** The grouped transaction id of the details popup: `k = |tx| / 4`
      groups take `5k - 1` characters, a space at every fifth position and
      the id's first `4k` characters, in order, everywhere else. */
  function Grouped(tx: string): (r: string)
    ensures |r| == (if |tx| < 4 then 0 else 5 * (|tx| / 4) - 1)
    ensures forall i :: 0 <= i < |r| ==>
      r[i] == (if i % 5 == 4 then ' ' else tx[4 * (i / 5) + i % 5])
  {
    ChunkedShape(tx);
    Join(Chunks(tx))
  }

  /** The pieces, put back together, are the id cut to a multiple of four. */
  lemma {:induction false} ConcatChunks(tx: string)
    ensures Concat(Chunks(tx)) == tx[..4 * (|tx| / 4)]
    decreases |tx|
  {
    if |tx| >= 4 {
      ConcatChunks(tx[4..]);
      assert Chunks(tx)[1..] == Chunks(tx[4..]);
      assert tx[..4 * (|tx| / 4)] == tx[..4] + tx[4..][..4 * (|tx[4..]| / 4)];
    }
  }

  /** Character by character: every fifth position is a space, and the
      others run through the id in order. */
  lemma {:induction false} JoinShape(cs: seq<string>)
    requires forall j :: 0 <= j < |cs| ==> |cs[j]| == 4
    ensures |Join(cs)| == (if cs == [] then 0 else 5 * |cs| - 1)
    ensures forall i :: 0 <= i < |Join(cs)| ==>
      Join(cs)[i] == (if i % 5 == 4 then ' ' else cs[i / 5][i % 5])
    decreases |cs|
  {
    if |cs| >= 2 {
      var rest := Join(cs[1..]);
      JoinShape(cs[1..]);
      var g := Join(cs);
      assert g == cs[0] + " " + rest;
      forall i | 0 <= i < |g|
        ensures g[i] == (if i % 5 == 4 then ' ' else cs[i / 5][i % 5])
      {
        if i >= 5 {
          assert g[i] == rest[i - 5];
          assert (i - 5) % 5 == i % 5 && (i - 5) / 5 == i / 5 - 1;
        }
      }
    }
  }

  /** Character `m` of piece `q` is character `4q + m` of the id. */
  lemma ChunkChar(tx: string, q: nat, m: nat)
    requires q < |tx| / 4 && m < 4
    ensures Chunks(tx)[q][m] == tx[4 * q + m]
  {
    assert Chunks(tx)[q] == tx[4 * q .. 4 * q + 4];
  }

  /** The joined pieces, character by character: spaces at every fifth
      position, the id's characters in order elsewhere. */
  lemma ChunkedShape(tx: string)
    ensures |Join(Chunks(tx))| == (if |tx| < 4 then 0 else 5 * (|tx| / 4) - 1)
    ensures forall i :: 0 <= i < |Join(Chunks(tx))| ==>
      Join(Chunks(tx))[i] == (if i % 5 == 4 then ' ' else tx[4 * (i / 5) + i % 5])
  {
    var cs := Chunks(tx);
    var g := Join(cs);
    JoinShape(cs);
    forall i | 0 <= i < |g| && i % 5 != 4
      ensures g[i] == tx[4 * (i / 5) + i % 5]
    {
      assert i / 5 < |cs|;
      ChunkChar(tx, i / 5, i % 5);
    }
  }

  lemma {:induction false} UnspaceAppend(a: string, b: string)
    ensures Unspace(a + b) == Unspace(a) + Unspace(b)
    decreases |a|
  {
    if a != [] {
      assert (a + b)[1..] == a[1..] + b;
      UnspaceAppend(a[1..], b);
    } else {
      assert a + b == b;
    }
  }

  lemma {:induction false} UnspaceNoSpace(s: string)
    requires ' ' !in s
    ensures Unspace(s) == s
    decreases |s|
  {
    if s != [] {
      UnspaceNoSpace(s[1..]);
    }
  }

  lemma {:induction false} UnspaceJoin(cs: seq<string>)
    requires forall j :: 0 <= j < |cs| ==> ' ' !in cs[j]
    ensures Unspace(Join(cs)) == Concat(cs)
    decreases |cs|
  {
    if |cs| == 1 {
      UnspaceNoSpace(cs[0]);
      assert Concat(cs) == cs[0] + Concat([]);
    } else if |cs| >= 2 {
      var head, rest := cs[0], Join(cs[1..]);
      assert Join(cs) == (head + " ") + rest;
      assert Concat(cs) == head + Concat(cs[1..]);
      UnspaceJoin(cs[1..]);
      UnspaceNoSpace(head);
      UnspaceAppend(head + " ", rest);
      UnspaceAppend(head, " ");
      assert Unspace(" ") == "";
      assert Unspace(head + " ") == head;
    }
  }

  /** Removing the spaces from a grouped id (one without spaces, as a hex id
      is) gives back the id cut to a multiple of four. */
  lemma UngroupRoundTrip(tx: string)
    requires ' ' !in tx
    ensures Unspace(Grouped(tx)) == tx[..4 * (|tx| / 4)]
  {
    var cs := Chunks(tx);
    forall j | 0 <= j < |cs|
      ensures ' ' !in cs[j]
    {
      assert cs[j] == tx[4 * j .. 4 * j + 4];
    }
    UnspaceJoin(cs);
    ConcatChunks(tx);
  }

  // ---- details popup ------------------------------------------------------

  /** The labels of the details popup; `txid` is None where the label keeps
      its default text. */
  datatype Details = Details(requestor: string, expires: string, memo: string,
                             signature: string, txid: Option<string>)

  const TxidCaption: string := "Transaction ID:\n"

  /** `do_view`. `verifyStatus` is the request's verification status after
      the wallet library has verified it. The expiry line agrees with the
      invoice's row in the list, and the transaction id line, shown only once
      a transaction is known, holds the id's complete groups of four. */
  function DoView(pr: Invoice, verifyStatus: string, env: Env): (r: Details)
    ensures r.expires == "Expires: " + Project(pr, env).date
    ensures r.requestor == "Requestor: " + Project(pr, env).requestor
    ensures r.memo == "Description: " + pr.memo
    ensures r.signature == "Signature: " + verifyStatus
    ensures r.txid.Some? <==> pr.tx != ""
    ensures r.txid.Some? ==>
      |r.txid.value| >= |TxidCaption| && r.txid.value[..|TxidCaption|] == TxidCaption
    ensures r.txid.Some? ==>
      var g := r.txid.value[|TxidCaption|..];
      && |g| == (if |pr.tx| < 4 then 0 else 5 * (|pr.tx| / 4) - 1)
      && forall i :: 0 <= i < |g| ==> g[i] == (if i % 5 == 4 then ' ' else pr.tx[4 * (i / 5) + i % 5])
    ensures r.txid.Some? && ' ' !in pr.tx ==>
      Unspace(r.txid.value[|TxidCaption|..]) == pr.tx[..4 * (|pr.tx| / 4)]
  {
    var txid := if pr.tx != "" then Some(TxidCaption + Grouped(pr.tx)) else None;
    var d := Details("Requestor: " + pr.requestor,
                     "Expires: " + (if pr.expiration != 0 then env.formatTime(pr.expiration) else Never),
                     "Description: " + pr.memo,
                     "Signature: " + verifyStatus,
                     txid);
    if pr.tx != "" then
      assert txid.value[|TxidCaption|..] == Grouped(pr.tx);
      if ' ' !in pr.tx then UngroupRoundTrip(pr.tx); d else d
    else d
  }
}

=== FILE: lifecycle.dfy ===
/**
  The lifecycle every wallet screen shares (the `CScreen` base class):
  enter schedules activate, activate loads the screen's view definition the
  first time, leave fires deactivate, deactivate closes the context menu,
  and at most one context menu is attached at a time. The scheduled
  activate is modelled as happening at once.
 */
module Lifecycle {
  import opened Wrappers

  /** The context menu built for a touched item with the screen's actions. */
  datatype ContextMenu = ContextMenu(target: nat, actions: seq<string>)

  /** A child widget of the screen: the loaded view definition or a menu. */
  datatype Child = View(kvname: string) | Menu(menu: ContextMenu)

  /** A screen. `kvname` is "" for a screen without a view definition;
      `updates` counts the calls to the screen's `update` that the lifecycle made. */
  datatype Screen = Screen(kvname: string, loaded: bool, updates: nat,
                           menu: Option<ContextMenu>, menuActions: seq<string>,
                           children: seq<Child>)

  datatype Event = Enter | Activate | Leave | Deactivate | ShowMenu(target: nat) | HideMenu

  function CountMenus(cs: seq<Child>): nat
  {
    if cs == [] then 0 else (if cs[0].Menu? then 1 else 0) + CountMenus(cs[1..])
  }

  function CountViews(cs: seq<Child>): nat
  {
    if cs == [] then 0 else (if cs[0].View? then 1 else 0) + CountViews(cs[1..])
  }

  /** `cs` with every occurrence of `c` removed (the widget tree's `remove_widget`). */
  function Without(cs: seq<Child>, c: Child): (r: seq<Child>)
    ensures c !in r
    ensures forall x :: x in r <==> x in cs && x != c
  {
    if cs == [] then []
    else if cs[0] == c then Without(cs[1..], c)
    else [cs[0]] + Without(cs[1..], c)
  }

  lemma CountAppend(a: seq<Child>, b: seq<Child>)
    ensures CountMenus(a + b) == CountMenus(a) + CountMenus(b)
    ensures CountViews(a + b) == CountViews(a) + CountViews(b)
  {
    if a == [] {
      assert a + b == b;
    } else {
      assert (a + b)[0] == a[0];
      assert (a + b)[1..] == a[1..] + b;
      CountAppend(a[1..], b);
    }
  }

  /** Removing a menu that is attached takes one menu away at least and
      leaves the view children alone. */
  lemma {:induction false} CountWithoutMenu(cs: seq<Child>, m: ContextMenu)
    ensures CountViews(Without(cs, Menu(m))) == CountViews(cs)
    ensures CountMenus(Without(cs, Menu(m))) <= CountMenus(cs)
    ensures Menu(m) in cs ==> CountMenus(Without(cs, Menu(m))) < CountMenus(cs)
  {
    if cs != [] {
      CountWithoutMenu(cs[1..], m);
      if cs[0] != Menu(m) {
        assert Without(cs, Menu(m)) == [cs[0]] + Without(cs[1..], Menu(m));
        CountAppend([cs[0]], Without(cs[1..], Menu(m)));
      }
    }
  }

  /** The screen invariant: the menu field and the attached menus agree
      (at most one), and the view definition is attached exactly when the
      screen is loaded, after one lifecycle `update`. */
  ghost predicate Valid(s: Screen)
  {
    && CountMenus(s.children) == (if s.menu.Some? then 1 else 0)
    && (s.menu.Some? ==> Menu(s.menu.value) in s.children)
    && CountViews(s.children) == (if s.loaded then 1 else 0)
    && s.updates == (if s.loaded then 1 else 0)
    && (s.loaded ==> s.kvname != "")
  }

  /** A freshly constructed screen. */
  function Initial(kvname: string, menuActions: seq<string>): (s: Screen)
    ensures Valid(s) && !s.loaded && s.menu.None?
  {
    Screen(kvname, false, 0, None, menuActions, [])
  }

  /** `hide_menu`: detach the menu, if any. */
  function DoHideMenu(s: Screen): (r: Screen)
    ensures r.menu.None?
    ensures Valid(s) ==> Valid(r) && CountMenus(r.children) == 0
    ensures s.menu.None? ==> r == s
    ensures r.loaded == s.loaded && r.updates == s.updates && r.kvname == s.kvname
    ensures r.menuActions == s.menuActions
    ensures forall c: Child :: !c.Menu? ==> (c in r.children <==> c in s.children)
  {
    match s.menu
    case None => s
    case Some(m) =>
      CountWithoutMenu(s.children, m);
      s.(menu := None, children := Without(s.children, Menu(m)))
  }

  /** `show_menu`: replace any attached menu by a fresh one for `target`. */
  function DoShowMenu(s: Screen, target: nat): (r: Screen)
    ensures r.menu == Some(ContextMenu(target, s.menuActions))
    ensures Valid(s) ==> Valid(r) && CountMenus(r.children) == 1
    ensures r.loaded == s.loaded && r.updates == s.updates && r.kvname == s.kvname
    ensures r.menuActions == s.menuActions
    ensures forall c: Child :: !c.Menu? ==> (c in r.children <==> c in s.children)
  {
    var h := DoHideMenu(s);
    var m := ContextMenu(target, s.menuActions);
    CountAppend(h.children, [Menu(m)]);
    h.(menu := Some(m), children := h.children + [Menu(m)])
  }

  /** `load_screen`: attach the view definition, mark the screen loaded and
      call `update` once. Registering the screen with the application is not modelled. */
  function LoadScreen(s: Screen): (r: Screen)
    requires s.kvname != ""
    ensures r.loaded && r.updates == s.updates + 1
    ensures r.children == s.children + [View(s.kvname)]
    ensures r.menu == s.menu && r.kvname == s.kvname && r.menuActions == s.menuActions
  {
    s.(loaded := true, updates := s.updates + 1, children := s.children + [View(s.kvname)])
  }

  /** `on_activate`: load on the first activation of a screen that has a
      view definition; otherwise nothing happens. */
  function OnActivate(s: Screen): (r: Screen)
    ensures r.loaded <==> s.loaded || s.kvname != ""
    ensures s.loaded || s.kvname == "" ==> r == s
    ensures s.kvname != "" && !s.loaded ==> r == LoadScreen(s)
    ensures Valid(s) ==> Valid(r)
  {
    if s.kvname != "" && !s.loaded then
      CountAppend(s.children, [View(s.kvname)]);
      LoadScreen(s)
    else s
  }

  /** The effect of one lifecycle event. */
  function Step(s: Screen, e: Event): (r: Screen)
    ensures Valid(s) ==> Valid(r)
  {
    match e
    case Enter => OnActivate(s)        // on_enter schedules on_activate
    case Activate => OnActivate(s)
    case Leave => DoHideMenu(s)        // on_leave dispatches on_deactivate
    case Deactivate => DoHideMenu(s)
    case ShowMenu(t) => DoShowMenu(s, t)
    case HideMenu => DoHideMenu(s)
  }

  function Run(s: Screen, es: seq<Event>): Screen
    decreases |es|
  {
    if es == [] then s else Run(Step(s, es[0]), es[1..])
  }

  predicate Activates(e: Event)
  {
    e.Enter? || e.Activate?
  }

  /** Over any sequence of events the screen invariant holds, the view
      definition is attached at most once, and it is attached (with one
      `update`) exactly when the screen has a view definition and was
      already loaded or some event activated it. */
  lemma {:induction false} LazyLoadOnce(s: Screen, es: seq<Event>)
    requires Valid(s)
    ensures Valid(Run(s, es))
    ensures CountViews(Run(s, es).children) <= 1
    ensures Run(s, es).loaded <==>
      s.loaded || (s.kvname != "" && exists i :: 0 <= i < |es| && Activates(es[i]))
    ensures Run(s, es).updates == (if Run(s, es).loaded then 1 else 0)
    decreases |es|
  {
    if es != [] {
      var s' := Step(s, es[0]);
      LazyLoadOnce(s', es[1..]);
      assert s'.kvname == s.kvname;
      assert s'.loaded <==> s.loaded || (s.kvname != "" && Activates(es[0]));
      if exists i :: 0 <= i < |es[1..]| && Activates(es[1..][i]) {
        var i :| 0 <= i < |es[1..]| && Activates(es[1..][i]);
        assert Activates(es[i + 1]);
      }
      if exists i :: 0 <= i < |es| && Activates(es[i]) {
        var i :| 0 <= i < |es| && Activates(es[i]);
        if i > 0 {
          assert Activates(es[1..][i - 1]);
        }
      }
    }
  }

  /** Hiding the menu twice is hiding it once. */
  lemma HideMenuIdempotent(s: Screen)
    ensures DoHideMenu(DoHideMenu(s)) == DoHideMenu(s)
    ensures DoHideMenu(s).menu.None?
  {
  }

  /** Leaving a screen always ends with no context menu attached. */
  lemma LeaveClosesMenu(s: Screen)
    requires Valid(s)
    ensures Step(s, Leave).menu.None?
    ensures CountMenus(Step(s, Leave).children) == 0
  {
  }

  /** Showing a second menu replaces the first: one menu stays attached, the new one. */
  lemma ShowMenuTwice(s: Screen, a: nat, b: nat)
    requires Valid(s)
    ensures CountMenus(Run(s, [ShowMenu(a), ShowMenu(b)]).children) == 1
    ensures Run(s, [ShowMenu(a), ShowMenu(b)]).menu == Some(ContextMenu(b, s.menuActions))
  {
    var es := [ShowMenu(a), ShowMenu(b)];
    var s1 := DoShowMenu(s, a);
    assert es[1..] == [ShowMenu(b)];
    assert Run(s, es) == Run(s1, [ShowMenu(b)]);
    assert Run(s1, [ShowMenu(b)]) == Run(DoShowMenu(s1, b), []);
  }
}

=== FILE: navigator.dfy ===
/**
  The tabbed carousel of the main screen: tab headers bound to carousel
  slides, kept in step whether the user taps a tab (`switch_to`) or swipes
  the carousel (`on_index`), and the scroll position that keeps the
  current tab header in view (`animate_tab_to_center`).

  Tabs and slides are referred to by their index in the tab list and in
  the carousel's slide list. Lifecycle events are not delivered here; they
  are returned, in order, as `Dispatch` values.
 */
module Navigator {
  import opened Wrappers

  datatype TabState = Normal | Down

  /** A tab header; `slide` is None for a container-only header. */
  datatype Tab = Tab(text: string, slide: Option<nat>, state: TabState)

  /** What a slide's `tab` attribute holds. A screen class may not declare
      the attribute at all, may declare it but leave it unbound (the History
      screen's `tab` defaults to None), or may hold the header bound to it. */
  datatype SlideTab = NoTabAttribute | NullTab | Header(index: nat)

  /** A carousel slide (a screen) and its `tab` attribute. */
  datatype Slide = Slide(tab: SlideTab)

  /** The navigator. `scroll` is the `scroll_x` of the view holding the tab
      strip, None while the strip is not attached to one. */
  datatype Nav = Nav(tabs: seq<Tab>, current: nat, slides: seq<Slide>,
                     currentSlide: nat, scroll: Option<real>)

  /** A lifecycle event dispatched to a slide, or the carousel loading it. */
  datatype Dispatch = Leave(slide: nat) | Load(slide: nat) | Enter(slide: nat)

  datatype Outcome = Outcome(nav: Nav, events: seq<Dispatch>)

  /** Every index the navigator holds points into its lists. */
  predicate Valid(n: Nav)
  {
    && n.current < |n.tabs|
    && n.currentSlide < |n.slides|
    && (forall i :: 0 <= i < |n.tabs| && n.tabs[i].slide.Some? ==> n.tabs[i].slide.value < |n.slides|)
    && (forall j :: 0 <= j < |n.slides| && n.slides[j].tab.Header? ==> n.slides[j].tab.index < |n.tabs|)
  }

  /** Tab headers and slides refer to each other both ways. */
  predicate Bound(n: Nav)
    requires Valid(n)
  {
    && (forall i :: 0 <= i < |n.tabs| && n.tabs[i].slide.Some? ==>
          n.slides[n.tabs[i].slide.value].tab == Header(i))
    && (forall j :: 0 <= j < |n.slides| && n.slides[j].tab.Header? ==>
          n.tabs[n.slides[j].tab.index].slide == Some(j))
  }

  function CountDown(tabs: seq<Tab>): nat
  {
    if tabs == [] then 0 else (if tabs[0].state == Down then 1 else 0) + CountDown(tabs[1..])
  }

  /** Exactly one header is down, and it is the current tab. */
  predicate Synced(n: Nav)
  {
    Valid(n) && CountDown(n.tabs) == 1 && n.tabs[n.current].state == Down
  }

  /** The two tab lists differ at most in the headers' states. */
  predicate SameHeaders(a: seq<Tab>, b: seq<Tab>)
  {
    |a| == |b| && forall i :: 0 <= i < |a| ==> a[i].text == b[i].text && a[i].slide == b[i].slide
  }

  function SetState(tabs: seq<Tab>, i: nat, st: TabState): (r: seq<Tab>)
    requires i < |tabs|
    ensures SameHeaders(tabs, r)
    ensures r[i].state == st
    ensures forall k :: 0 <= k < |tabs| && k != i ==> r[k] == tabs[k]
  {
    tabs[i := tabs[i].(state := st)]
  }

  /** Changing one header's state changes the number of down headers by the difference. */
  lemma {:induction false} CountDownSet(tabs: seq<Tab>, i: nat, st: TabState)
    requires i < |tabs|
    ensures CountDown(SetState(tabs, i, st)) + (if tabs[i].state == Down then 1 else 0)
         == CountDown(tabs) + (if st == Down then 1 else 0)
    decreases |tabs|
  {
    var r := SetState(tabs, i, st);
    if i == 0 {
      assert r[1..] == tabs[1..];
    } else {
      assert r[1..] == SetState(tabs[1..], i - 1, st);
      CountDownSet(tabs[1..], i - 1, st);
    }
  }

  /** A down header is counted. */
  lemma {:induction false} CountDownAtLeast(tabs: seq<Tab>, i: nat)
    requires i < |tabs|
    ensures tabs[i].state == Down ==> CountDown(tabs) >= 1
    decreases |tabs|
  {
    if i > 0 {
      CountDownAtLeast(tabs[1..], i - 1);
    }
  }

  /** `switch_to`. A null header changes nothing. A container-only header
      goes through the toolkit's own switch (the old current header goes
      normal, the header goes down and becomes current), after which the
      last header of the tab list is made current and down. A header bound
      to a slide becomes the single down, current header, and the carousel
      leaves its slide and loads and enters the header's slide when they differ. */
  function SwitchTo(n: Nav, header: Option<nat>): (o: Outcome)
    requires Valid(n)
    requires header.Some? ==> header.value < |n.tabs|
    ensures Valid(o.nav) && SameHeaders(n.tabs, o.nav.tabs)
    ensures o.nav.slides == n.slides && o.nav.scroll == n.scroll
    ensures header.None? ==> o == Outcome(n, [])
    ensures header.Some? && n.tabs[header.value].slide.None? ==>
      && o.events == []
      && o.nav.currentSlide == n.currentSlide
      && o.nav.current == |n.tabs| - 1
      && o.nav.tabs[header.value].state == Down
      && o.nav.tabs[|n.tabs| - 1].state == Down
      && (header.value != n.current && |n.tabs| - 1 != n.current ==> o.nav.tabs[n.current].state == Normal)
      && (forall k :: 0 <= k < |n.tabs| && k != header.value && k != n.current && k != |n.tabs| - 1 ==>
            o.nav.tabs[k] == n.tabs[k])
    ensures header.Some? && n.tabs[header.value].slide.Some? ==>
      var h := header.value;
      var target := n.tabs[h].slide.value;
      && o.nav.current == h
      && o.nav.tabs[h].state == Down
      && (h != n.current ==> o.nav.tabs[n.current].state == Normal)
      && (forall k :: 0 <= k < |n.tabs| && k != h && k != n.current ==> o.nav.tabs[k] == n.tabs[k])
      && o.nav.currentSlide == target
      && o.events == (if target != n.currentSlide then [Leave(n.currentSlide), Load(target), Enter(target)] else [])
      && (Synced(n) ==> Synced(o.nav))
  {
    match header
    case None => Outcome(n, [])
    case Some(h) =>
      if n.tabs[h].slide.None? then
        var base := SetState(SetState(n.tabs, n.current, Normal), h, Down);
        var last := |n.tabs| - 1;
        Outcome(n.(tabs := SetState(base, last, Down), current := last), [])
      else
        var t1 := SetState(n.tabs, n.current, Normal);
        var tabs := SetState(t1, h, Down);
        CountDownSet(n.tabs, n.current, Normal);
        CountDownSet(t1, h, Down);
        CountDownAtLeast(t1, h);
        var target := n.tabs[h].slide.value;
        var events := if target != n.currentSlide then [Leave(n.currentSlide), Load(target), Enter(target)] else [];
        Outcome(n.(tabs := tabs, current := h, currentSlide := target), events)
  }

  /** `on_index`: the carousel has moved to `currentSlide` (a swipe). A
      slide whose screen has no `tab` attribute changes nothing. A slide
      whose `tab` is unbound makes reading the header's text fail, and the
      current slide is entered directly. When the slide's header has a
      different text from the current header, the current header's slide is
      left, the slide's header is switched to, and the header's slide is
      entered. When the texts differ and the current header has no slide,
      the lookup fails before anything happens and the current slide is entered directly; when the
      slide's header has none, the failure comes after the switch and again
      the current slide is entered. */
  function OnIndex(n: Nav): (o: Outcome)
    requires Valid(n)
    ensures Valid(o.nav) && SameHeaders(n.tabs, o.nav.tabs)
    ensures o.nav.slides == n.slides
    ensures n.slides[n.currentSlide].tab == NoTabAttribute ==> o == Outcome(n, [])
    ensures n.slides[n.currentSlide].tab == NullTab ==> o == Outcome(n, [Enter(n.currentSlide)])
    ensures n.slides[n.currentSlide].tab.Header? ==>
      var t := n.slides[n.currentSlide].tab.index;
      && (n.tabs[n.current].text == n.tabs[t].text ==> o == Outcome(n, []))
      && (n.tabs[n.current].text != n.tabs[t].text && n.tabs[n.current].slide.None? ==>
            o == Outcome(n, [Enter(n.currentSlide)]))
      && (n.tabs[n.current].text != n.tabs[t].text && n.tabs[n.current].slide.Some? ==>
            && |o.events| >= 2
            && o.events[0] == Leave(n.tabs[n.current].slide.value)
            && o.events[|o.events| - 1] == Enter(if n.tabs[t].slide.Some? then n.tabs[t].slide.value else n.currentSlide)
            && o.nav == SwitchTo(n, Some(t)).nav
            && o.events == [Leave(n.tabs[n.current].slide.value)] + SwitchTo(n, Some(t)).events
                           + [Enter(if n.tabs[t].slide.Some? then n.tabs[t].slide.value else n.currentSlide)])
  {
    match n.slides[n.currentSlide].tab
    case NoTabAttribute => Outcome(n, [])
    case NullTab => Outcome(n, [Enter(n.currentSlide)])  // reading the text of a None header fails
    case Header(t) =>
      var ct := n.current;
      if n.tabs[ct].text == n.tabs[t].text then Outcome(n, [])
      else if n.tabs[ct].slide.None? then Outcome(n, [Enter(n.currentSlide)])
      else
        var leave := Leave(n.tabs[ct].slide.value);
        var o := SwitchTo(n, Some(t));
        var enter := if n.tabs[t].slide.Some? then Enter(n.tabs[t].slide.value) else Enter(n.currentSlide);
        Outcome(o.nav, [leave] + o.events + [enter])
  }

  /** Swiping to a slide whose header is not current does what tapping that
      header does: the header becomes the single down, current one, and the
      old slide is left and the new one entered, once each. */
  lemma SwipeMatchesTap(n: Nav)
    requires Valid(n) && Bound(n) && Synced(n)
    requires n.slides[n.currentSlide].tab.Header?
    requires n.tabs[n.current].slide.Some?
    requires n.tabs[n.current].text != n.tabs[n.slides[n.currentSlide].tab.index].text
    ensures OnIndex(n).nav.current == n.slides[n.currentSlide].tab.index
    ensures Synced(OnIndex(n).nav)
    ensures OnIndex(n).events == [Leave(n.tabs[n.current].slide.value), Enter(n.currentSlide)]
  {
    var t := n.slides[n.currentSlide].tab.index;
    assert n.tabs[t].slide == Some(n.currentSlide);
    assert SwitchTo(n, Some(t)).events == [];
  }

  /** After a tap on a bound header, the index change the carousel reports
      for the loaded slide finds the header already current and does nothing. */
  lemma TapThenSwipeIsQuiet(n: Nav, h: nat)
    requires Valid(n) && Bound(n)
    requires h < |n.tabs| && n.tabs[h].slide.Some?
    ensures OnIndex(SwitchTo(n, Some(h)).nav) == Outcome(SwitchTo(n, Some(h)).nav, [])
  {
    var m := SwitchTo(n, Some(h)).nav;
    assert n.slides[n.tabs[h].slide.value].tab == Header(h);
    assert m.slides[m.currentSlide].tab == Header(h);
  }

  /** The scroll position that brings header `idx` of `count` into view:
      the first two headers pin to 1 (checked first), the last two to 0,
      and the others interpolate. */
  function ScrollTarget(idx: nat, count: nat): (r: real)
    requires idx < count
    ensures 0.0 <= r <= 1.0
    ensures idx <= 1 ==> r == 1.0
    ensures 2 <= idx && count <= idx + 2 ==> r == 0.0
    ensures 2 <= idx < count - 2 ==>
      && count >= 5
      && 0.0 < r < 1.0
      && r * (count - 1) as real == (count - idx - 1) as real
  {
    if idx == 0 || idx == 1 then 1.0
    else if idx == count - 1 || idx == count - 2 then 0.0
    else (count - idx - 1) as real / (count - 1) as real
  }

  /** Dividing by a positive number keeps the order. */
  lemma DivideMonotone(p: real, q: real, d: real)
    requires p <= q && 0.0 < d
    ensures p / d <= q / d
  {
    assert q / d - p / d == (q - p) / d;
  }

  /** Headers further along the strip never scroll further left. */
  lemma ScrollTargetMonotone(i: nat, j: nat, count: nat)
    requires i <= j < count
    ensures ScrollTarget(j, count) <= ScrollTarget(i, count)
  {
    if 2 <= i && j < count - 2 {
      DivideMonotone((count - j - 1) as real, (count - i - 1) as real, (count - 1) as real);
    }
  }

  /** `animate_tab_to_center` / `on_current_tab`: nothing while no scroll view
      holds the tab strip; otherwise the scroll view's target becomes the
      header's scroll position (the animation towards it is not modelled). */
  function OnCurrentTab(n: Nav, value: nat): (r: Nav)
    requires value < |n.tabs|
    ensures n.scroll.None? ==> r == n
    ensures r.tabs == n.tabs && r.current == n.current && r.slides == n.slides && r.currentSlide == n.currentSlide
    ensures n.scroll.Some? ==> r.scroll.Some? && 0.0 <= r.scroll.value <= 1.0
    ensures n.scroll.Some? && value <= 1 ==> r.scroll == Some(1.0)
    ensures n.scroll.Some? && 2 <= value && |n.tabs| <= value + 2 ==> r.scroll == Some(0.0)
    ensures n.scroll.Some? ==> r.scroll == Some(ScrollTarget(value, |n.tabs|))
  {
    if n.scroll.None? then n else n.(scroll := Some(ScrollTarget(value, |n.tabs|)))
  }
}

=== FILE: receive.dfy ===
/**
  The Receive screen's address allocation: a fresh unused address from the
  wallet, which also blanks the amount and message, or no change at all
  when the wallet has none to give. `unused` is the wallet's answer.
 */
module Receive {
  import opened Wrappers

  datatype Form = Form(address: string, amount: string, message: string)

  datatype Allocation = Allocation(form: Form, ok: bool)

  /** The end of `do_new`: the form and the notice shown to the user, if any. */
  datatype NewResult = NewResult(form: Form, notice: Option<string>)

  const UseExistingMessage: string := "Please use the existing requests first."

  /** `get_new_address`. */
  function GetNewAddress(f: Form, unused: Option<string>): (r: Allocation)
    ensures r.ok <==> unused.Some?
    ensures !r.ok ==> r.form == f
    ensures r.ok ==> r.form == Form(unused.value, "", "")
  {
    match unused
    case None => Allocation(f, false)
    case Some(a) => Allocation(Form(a, "", ""), true)
  }

  /** The screen's `update`: allocate an address only when none is shown. */
  function Update(f: Form, unused: Option<string>): (r: Form)
    ensures f.address != "" ==> r == f
    ensures f.address == "" && unused.Some? ==> r == Form(unused.value, "", "")
    ensures f.address == "" && unused.None? ==> r == f
  {
    if f.address == "" then GetNewAddress(f, unused).form else f
  }

  /** `do_new`: allocate a fresh address, or tell the user to use the
      existing requests when the wallet has no unused address. */
  function DoNew(f: Form, unused: Option<string>): (r: NewResult)
    ensures r.notice.Some? <==> unused.None?
    ensures r.notice.Some? ==> r.form == f && r.notice.value == UseExistingMessage
    ensures r.notice.None? ==> r.form == Form(unused.value, "", "")
  {
    var a := GetNewAddress(f, unused);
    NewResult(a.form, if a.ok then None else Some(UseExistingMessage))
  }

  /** Updating twice with the same wallet answer is updating once. */
  lemma UpdateIdempotent(f: Form, unused: Option<string>)
    ensures Update(Update(f, unused), unused) == Update(f, unused)
  {
  }
}

=== FILE: send.dfy ===
/**
  The Send screen's form and its actions: loading a payment request into
  the form, clearing it, saving it as an invoice, and the validation that
  `do_send` performs before handing the outputs to the password-protected
  send. Address validation and amount parsing belong to the wallet library
  and are parameters here: `isAddress`, and `getAmount`, which is None
  where parsing raises.
 */
module Send {
  import opened Wrappers

  datatype OutputType = TypeAddress

  /** One transaction output: (type, address, amount). */
  datatype TxOutput = TxOutput(kind: OutputType, address: string, amount: int)

  /** A loaded payment request; `expired` is the answer of its expiry check
      at the moment of sending, `amount` is 0 when it asks for no fixed amount. */
  datatype PaymentRequest = PaymentRequest(requestor: string, amount: int, memo: string,
                                           expired: bool, outputs: seq<TxOutput>)

  /** The form fields and the request loaded into it, if any. */
  datatype Form = Form(address: string, amount: string, message: string,
                       request: Option<PaymentRequest>)

  /** The wallet-library queries `do_send` makes, in the order it makes them. */
  datatype Query = CheckExpired | GetOutputs | CheckAddress(address: string) | ParseAmount(text: string)

  /** The end of `do_send`: an error shown to the user, the address failing
      Python 2's `str()` conversion (the encoding error propagates out of the
      handler), or the protected send called once with its outputs, fee
      (always None) and message. */
  datatype Verdict =
    | ShowError(msg: string)
    | EncodeFailed
    | Protected(outputs: seq<TxOutput>, fee: Option<int>, message: string)

  datatype SendResult = SendResult(verdict: Verdict, queries: seq<Query>)

  /** The unsigned request `do_save` stores in the invoice list. */
  datatype Invoice = Invoice(address: string, memo: string, amount: int)

  /** The end of `do_save`: nothing to do, an invoice stored (followed by the
      invoices tab refresh and the "Invoice saved" notice), or the amount
      failing to parse, which propagates out of the handler. */
  datatype SaveResult = Skipped | Saved(invoice: Invoice) | AmountFailed

  const ExpiredMessage: string := "Payment request has expired"

  /** Python 2's `str()` of a text value succeeds exactly when every
      character is ASCII. */
  predicate Ascii(s: string)
  {
    forall i :: 0 <= i < |s| ==> s[i] < 128 as char
  }

  function InvalidAddressMessage(address: string): string
  {
    "Invalid Litecoin Address" + ":\n" + address
  }

  function InvalidAmountMessage(amount: string): string
  {
    "Invalid amount" + ":\n" + amount
  }

  /** `do_send`. A loaded request is checked for expiry first and then
      supplies the outputs; without one, the address is converted with `str()`
      and validated before the amount is parsed, and the outputs are the single
      payment to that address. */
  function DoSend(f: Form, isAddress: string -> bool, getAmount: string -> Option<int>): (r: SendResult)
    ensures f.request.Some? ==> |r.queries| >= 1 && r.queries[0] == CheckExpired
    ensures f.request.Some? && f.request.value.expired ==>
      r == SendResult(ShowError(ExpiredMessage), [CheckExpired])
    ensures f.request.Some? && !f.request.value.expired ==>
      r.verdict == Protected(f.request.value.outputs, None, f.message)
    ensures r.verdict == EncodeFailed <==> f.request.None? && !Ascii(f.address)
    ensures r.verdict == EncodeFailed ==> r.queries == []
    ensures f.request.None? && Ascii(f.address) ==> |r.queries| >= 1 && r.queries[0] == CheckAddress(f.address)
    ensures f.request.None? && Ascii(f.address) && !isAddress(f.address) ==>
      r == SendResult(ShowError(InvalidAddressMessage(f.address)), [CheckAddress(f.address)])
    ensures f.request.None? && Ascii(f.address) && isAddress(f.address) ==>
      r.queries == [CheckAddress(f.address), ParseAmount(f.amount)]
    ensures f.request.None? && Ascii(f.address) && isAddress(f.address) && getAmount(f.amount).None? ==>
      r.verdict == ShowError(InvalidAmountMessage(f.amount))
    ensures f.request.None? && Ascii(f.address) && isAddress(f.address) && getAmount(f.amount).Some? ==>
      r.verdict == Protected([TxOutput(TypeAddress, f.address, getAmount(f.amount).value)], None, f.message)
  {
    match f.request
    case Some(pr) =>
      if pr.expired then SendResult(ShowError(ExpiredMessage), [CheckExpired])
      else SendResult(Protected(pr.outputs, None, f.message), [CheckExpired, GetOutputs])
    case None =>
      if !Ascii(f.address) then SendResult(EncodeFailed, [])
      else if !isAddress(f.address) then
        SendResult(ShowError(InvalidAddressMessage(f.address)), [CheckAddress(f.address)])
      else
        var queries := [CheckAddress(f.address), ParseAmount(f.amount)];
        match getAmount(f.amount)
        case None => SendResult(ShowError(InvalidAmountMessage(f.amount)), queries)
        case Some(a) => SendResult(Protected([TxOutput(TypeAddress, f.address, a)], None, f.message), queries)
  }

  /** A send goes ahead only for an unexpired request, or for a valid ASCII
      address with a parsable amount; and the amount is parsed only after the
      address has been accepted. */
  lemma SendGate(f: Form, isAddress: string -> bool, getAmount: string -> Option<int>)
    ensures DoSend(f, isAddress, getAmount).verdict.Protected? <==>
      (if f.request.Some? then !f.request.value.expired
       else Ascii(f.address) && isAddress(f.address) && getAmount(f.amount).Some?)
    ensures ParseAmount(f.amount) in DoSend(f, isAddress, getAmount).queries ==>
      f.request.None? && Ascii(f.address) && isAddress(f.address)
    ensures f.request.None? && DoSend(f, isAddress, getAmount).verdict.Protected? ==>
      |DoSend(f, isAddress, getAmount).verdict.outputs| == 1 &&
      DoSend(f, isAddress, getAmount).verdict.outputs[0].address == f.address
  {
  }

  /** An address the wallet rejects yields the error and no other wallet
      query; a non-ASCII address fails before any query. */
  lemma SendInvalidAddressExample(amount: string, message: string, getAmount: string -> Option<int>)
    ensures DoSend(Form("invalid123", amount, message, None), _ => false, getAmount)
      == SendResult(ShowError("Invalid Litecoin Address:\ninvalid123"), [CheckAddress("invalid123")])
    ensures DoSend(Form("\U{E9}", amount, message, None), _ => true, getAmount) == SendResult(EncodeFailed, [])
  {
    assert InvalidAddressMessage("invalid123") == "Invalid Litecoin Address:\ninvalid123";
    assert !Ascii("\U{E9}") by { assert "\U{E9}"[0] == '\U{E9}'; }
  }

  /** `do_clear`: empty every field and forget the request. */
  function DoClear(f: Form): (r: Form)
    ensures r.address == "" && r.amount == "" && r.message == "" && r.request.None?
  {
    Form("", "", "", None)
  }

  /** `do_save`. Nothing happens without an address or with a loaded request
      (it is already stored); otherwise the form becomes an unsigned invoice,
      its amount 0 when the amount field is empty. */
  function DoSave(f: Form, getAmount: string -> Option<int>): (r: SaveResult)
    ensures r == Skipped <==> f.address == "" || f.request.Some?
    ensures r == AmountFailed <==>
      f.address != "" && f.request.None? && f.amount != "" && getAmount(f.amount).None?
    ensures r.Saved? ==>
      && r.invoice.address == f.address
      && r.invoice.memo == f.message
      && r.invoice.amount == (if f.amount == "" then 0 else getAmount(f.amount).value)
  {
    if f.address == "" then Skipped
    else if f.request.Some? then Skipped
    else if f.amount == "" then Saved(Invoice(f.address, f.message, 0))
    else match getAmount(f.amount)
      case None => AmountFailed
      case Some(a) => Saved(Invoice(f.address, f.message, a))
  }

  /** A cleared form is cleared again by clearing, cannot be saved, and
      cannot be sent unless the wallet accepts the empty address. */
  lemma ClearedForm(f: Form, isAddress: string -> bool, getAmount: string -> Option<int>)
    ensures DoClear(DoClear(f)) == DoClear(f)
    ensures DoSave(DoClear(f), getAmount) == Skipped
    ensures !isAddress("") ==>
      DoSend(DoClear(f), isAddress, getAmount).verdict == ShowError(InvalidAddressMessage(""))
  {
  }

  /** `set_request`: lock the form to a payment request. The amount field is
      overwritten only when the request asks for an amount; `format` is the
      application's amount-and-unit rendering. */
  function SetRequest(f: Form, pr: PaymentRequest, format: int -> string): (r: Form)
    ensures r.request == Some(pr)
    ensures r.address == pr.requestor && r.message == pr.memo
    ensures r.amount == (if pr.amount != 0 then format(pr.amount) else f.amount)
  {
    Form(pr.requestor, if pr.amount != 0 then format(pr.amount) else f.amount, pr.memo, Some(pr))
  }

  /** The screen's `update`: load the application's current invoice, if any. */
  function Update(f: Form, currentInvoice: Option<PaymentRequest>, format: int -> string): (r: Form)
    ensures currentInvoice.None? ==> r == f
    ensures currentInvoice.Some? ==> r.request == currentInvoice
    ensures currentInvoice.Some? ==>
      && r.address == currentInvoice.value.requestor
      && r.message == currentInvoice.value.memo
      && r.amount == (if currentInvoice.value.amount != 0 then format(currentInvoice.value.amount) else f.amount)
  {
    match currentInvoice
    case None => f
    case Some(pr) => SetRequest(f, pr, format)
  }

  /** Once a request is loaded, saving does nothing and sending depends on
      the request alone: its expiry and its outputs, whatever the address
      and amount fields hold. */
  lemma RequestGovernsSend(f: Form, pr: PaymentRequest, format: int -> string,
                           isAddress: string -> bool, getAmount: string -> Option<int>)
    ensures DoSave(SetRequest(f, pr, format), getAmount) == Skipped
    ensures DoSend(SetRequest(f, pr, format), isAddress, getAmount).verdict ==
      (if pr.expired then ShowError(ExpiredMessage) else Protected(pr.outputs, None, pr.memo))
  {
  }
}

=== FILE: theme.dfy ===
/**
  The icon atlas of the light theme. Every icon the screens assign is a
  path `atlas://gui/kivy/theming/light/<name>`; the clock icons carry the
  confirmation count in decimal (`clock1` ... `clock5`).
 */
module Theme {

  datatype Icon = Close | Unconfirmed | Clock(n: nat) | Confirmed | Important

  const AtlasPrefix: string := "atlas://gui/kivy/theming/light/"

  /** Decimal rendering of a natural number, most significant digit first. */
  function Decimal(n: nat): (r: string)
    ensures |r| >= 1
    ensures n < 10 <==> |r| == 1
    ensures r[|r| - 1] == DigitChar(n % 10)
    ensures forall i :: 0 <= i < |r| ==> '0' <= r[i] <= '9'
    decreases n
  {
    if n < 10 then [DigitChar(n)] else Decimal(n / 10) + [DigitChar(n % 10)]
  }

  function DigitChar(d: nat): (c: char)
    requires d < 10
    ensures '0' <= c <= '9'
  {
    "0123456789"[d]
  }

  lemma DigitCharInjective(a: nat, b: nat)
    requires a < 10 && b < 10
    ensures DigitChar(a) == DigitChar(b) ==> a == b
  {
  }

  /** Distinct numbers have distinct decimal renderings. */
  lemma {:induction false} DecimalInjective(a: nat, b: nat)
    ensures Decimal(a) == Decimal(b) ==> a == b
    decreases a
  {
    if Decimal(a) == Decimal(b) {
      var ra, rb := Decimal(a), Decimal(b);
      DigitCharInjective(a % 10, b % 10);
      assert a % 10 == b % 10;
      if a >= 10 {
        assert b >= 10;
        assert Decimal(a / 10) == ra[..|ra| - 1];
        assert Decimal(b / 10) == rb[..|rb| - 1];
        DecimalInjective(a / 10, b / 10);
      }
    }
  }

  /** The atlas entry name of an icon. */
  function Name(icon: Icon): (r: string)
    ensures |r| >= 5
  {
    match icon
    case Close => "close"
    case Unconfirmed => "unconfirmed"
    case Clock(n) => "clock" + Decimal(n)
    case Confirmed => "confirmed"
    case Important => "important"
  }

  /** The full atlas path the widgets receive. */
  function Path(icon: Icon): (r: string)
    ensures |r| > |AtlasPrefix| && r[..|AtlasPrefix|] == AtlasPrefix
    ensures r[|AtlasPrefix|..] == Name(icon)
  {
    AtlasPrefix + Name(icon)
  }

  lemma {:induction false} NameInjective(a: Icon, b: Icon)
    ensures Name(a) == Name(b) ==> a == b
  {
    if Name(a) == Name(b) {
      var na, nb := Name(a), Name(b);
      // the first three letters already separate the fixed names
      assert na[..3] == nb[..3];
      if a.Clock? && b.Clock? {
        assert Decimal(a.n) == na[5..];
        assert Decimal(b.n) == nb[5..];
        DecimalInjective(a.n, b.n);
      }
    }
  }

  /** Distinct icons are written as distinct atlas paths. */
  lemma {:induction false} PathInjective(a: Icon, b: Icon)
    ensures Path(a) == Path(b) <==> a == b
  {
    if Path(a) == Path(b) {
      assert Name(a) == Path(a)[|AtlasPrefix|..];
      assert Name(b) == Path(b)[|AtlasPrefix|..];
      NameInjective(a, b);
    }
  }
}

=== FILE: wrappers.dfy ===
/** The optional value used throughout the model in place of Python's `None`. */
module Wrappers {

  datatype Option<+T> = None | Some(value: T)
}
